=== FILE: README.md ===
# Therapy-platform backend: access gate and handler core

A Dafny model of the decision and state-update layer of an Express/Mongoose
backend. Students of a study-support programme register, keep a profile, watch
weekly videos, and submit one reflection per video. They also exchange messages
with an instructor, who curates the video catalogue.

The model covers:

- the request gate `protect` and `requireRole` (`AuthMiddleware`);
- the four account handlers, including the two-level profile merge (`AuthController`);
- the message log, its role-scoped views and recipient routing (`ChatController`);
- the reflection upsert keyed by (user, videoId) and its three reads (`ReflectionController`);
- the video catalogue CRUD keyed by the integer `videoId` (`VideoController`);
- the gate placed in front of each route (`Routes`).

Each MongoDB collection is a class holding one `docs` sequence in natural
(insertion) order, so `findOne` is the first match. The collection's `Valid()`
invariant carries the unique indexes:

- `email` on users;
- `videoId` on videos;
- (user, videoId) on reflections.

Handlers that only read are functions over those sequences. Handlers that
write are methods with `modifies` on their collection, and each states the whole
new state of its collection. Three of them are tied to a pure function whose
laws are proved as lemmas:

- `UpdateUserProfile` to `ApplyUpdate` and `MergeProfile`;
- `SubmitReflection` to `Upsert`;
- `UpdateVideo` to `Patch`.

`RegisterUser`, `SendMessage`, `CreateVideo` and `DeleteVideo` append or remove
one record. Their contracts state the new sequence directly, and each preserves
its collection's invariant.

Every handler answers a `Reply`: `Done(status, payload)` or
`Refused(status, why)`. The `why` stands in for the localized message text.

Some things become parameters:

- bcrypt's hash of the submitted password is the `digest` parameter, None when no password was sent;
- bcrypt's comparison is the `matches` parameter;
- JWT signing is `sign`;
- JWT verification, covering signature and expiry, is `verify`;
- `Date.now()` is `now`.

JavaScript truthiness of request fields is explicit:

- `TruthyText`: a present, non-empty string;
- `TruthyNumber`: a present, non-zero number.

A request field may be absent, so the handlers take it as an `Option`. Mongoose
drops a filter condition whose value is undefined. So `findOne({ email })`
without an email, and `findOne({ videoId })` without a key, match the first
stored document. The lookups `FindByEmail` and `FindVideoQuery` model this.

Some behaviours of the code worth knowing:

- A duplicate email at registration or a duplicate `videoId` at creation is answered 400.
- A registration without an email is answered 400 as soon as any account is stored.
- When the email lookup finds nothing, a registration with a missing or empty name, or a missing or empty email, fails schema validation and is answered 500. A missing email reaches this only while no account is stored.
- When the key lookup finds nothing, a video created without a key or a title fails schema validation and is answered 500. A missing key reaches this only while the catalogue is empty.
- A missing password makes bcrypt throw, which is answered 500: at registration when the email lookup finds nothing (a taken email is 400 first), and at login when it finds an account (otherwise 401).
- A login without an email checks the password against the first stored account.
- A header that starts with `Bearer` but carries no second field has its own 401 reason.
- An instructor's `recipientId` is stored as given, without checking that such an account exists.

## Model

| member | source | states |
|---|---|---|
| UserModel.FindById | middleware/authMiddleware.js:21 | `findById`: the position of the account with that identity, or none when no account has it |
| UserModel.FindByEmail | controllers/authController.js:20 | `findOne({email})`: for a sent email, the first account with it, or none when no account has it; without an email, the first stored account, or none when there is no account |
| UserModel.FindByRole | controllers/chatController.js:95 | `findOne({role})`: the first account holding the role, or none when no account holds it |
| VideoModel.FindVideo | controllers/videoController.js:20 | `findOne({videoId})`: the first video stored under the key, or none |
| VideoModel.FindVideoQuery | controllers/videoController.js:40 | `findOne({videoId})` with the key as sent: a video with the key, or none when no video has it; without a key, the first stored video, or none when the catalogue is empty |
| ReflectionModel.FindReflection | controllers/reflectionController.js:20-23 | the record stored for (user, videoId), or none when no record has that key |
| Seqs.SortBy | controllers/chatController.js:40 | `.sort(...)`: the result is a permutation of the input (same multiset) and is ordered by the key |
| Seqs.MapCount | controllers/chatController.js:62 | a projection such as `select` keeps each element's multiplicity when no other element projects to the same value |
| AuthMiddleware.SecondField | middleware/authMiddleware.js:10 | `split(' ')[1]`: undefined exactly when the header has no space; otherwise exactly the text between the first space and the next space or the end |
| AuthMiddleware.BearerToken | middleware/authMiddleware.js:7-12 | a token exists exactly when the header starts with `Bearer` and its second field is non-empty; it is that second field |
| AuthMiddleware.SecondFieldIs | middleware/authMiddleware.js:10 | the second field of `a b` followed by nothing or by a space is exactly `b`: "Bearer a b" gives "a", and "Bearer  x" gives "" |
| AuthMiddleware.SchemeNeedsNoSpace | middleware/authMiddleware.js:7-10 | the scheme test has no space in it, so "BearerXYZ tok" yields "tok"; anything after the token and a further space is ignored |
| AuthMiddleware.BearerTokenRoundTrip | middleware/authMiddleware.js:7-10 | the header `"Bearer " + t` yields exactly `t` for any non-empty `t` without spaces |
| AuthMiddleware.BareSchemeHasNoToken | middleware/authMiddleware.js:10-14 | `"Bearer"`, `"Bearer "` and `"Bearer  "` followed by anything carry no token, so they take the "no token provided" branch |
| AuthMiddleware.Protect | middleware/authMiddleware.js:4-36 | proceeds iff a token is present, verifies, and names a stored identity; every refusal is 401 with one of the four reasons, each holding iff its step is the first to fail (no scheme, empty token, verification failure, unknown identity); on proceeding, the principal is the stored account of the verified identity without its digest |
| AuthMiddleware.ProtectReadsCurrentRecord | middleware/authMiddleware.js:21-28 | after the stored account of a verified identity is replaced, the same header yields the new record: the role and profile are re-read, not taken from the token |
| AuthMiddleware.RequireRole | middleware/authMiddleware.js:39-46 | proceeds iff a principal exists and holds the role; otherwise 403 |
| AuthMiddleware.Admit | routes/videoRoutes.js:87 | a public route admits anonymously; any other route admits iff `protect` proceeds and, when the route is restricted, the principal holds its role; a rejection is 401 iff `protect` refuses and 403 iff the role is wrong, and never anything else |
| AuthMiddleware.RestrictedAdmitsOnlyStoredRole | middleware/authMiddleware.js:21-46 | a role-restricted route admits only when the account currently stored under the token's identity holds the role |
| AuthController.RegisterUser | controllers/authController.js:15-57 | 400 iff the email lookup finds an account (any account when no email is sent); then 500 iff no password was sent, or iff name or email is missing or empty; otherwise, and only then, success: exactly one student account is appended under a fresh identity, with profile `{}` when none is sent, and 201 answers with its summary and token; refusals change nothing; the unique indexes are preserved |
| AuthController.LoginUser | controllers/authController.js:62-84 | with an email and a password and unique emails, 200 iff an account with the email exists and the password matches its digest; without an email, 200 iff the first stored account's digest matches; a missing password with an account found is 500; every other outcome is the same 401; the session is that of the account whose digest was checked: the first account with the email, or the first stored account when no email is sent |
| AuthController.SessionTokenAuthenticates | controllers/authController.js:6-10 | the token `generateToken` issues for a stored account, when JWT verifies its own signature and the token has no space, gets through `protect` (middleware/authMiddleware.js:7-28) as exactly that account without its digest; this covers the account `register` appends and the one `login` matches |
| AuthController.LoginSessionAuthenticates | controllers/authController.js:62-84 | under JWT's round trip, a successful login's token gets through `protect` as the very account its session describes |
| AuthController.GetUserProfile | controllers/authController.js:89-96 | always 200; the caller's stored account without digest, or null iff it no longer exists |
| AuthController.MergeProfile | controllers/authController.js:109-118 | keys: the union of both profiles plus `needs`; an incoming entry wins even if falsy; an entry not sent is kept; `needs` is the stored flags overlaid by the incoming flags |
| AuthController.MergeNeedsFlags | controllers/authController.js:114-117 | flag by flag: a sent flag takes its value, even false; an unsent stored flag survives; no other flag appears |
| AuthController.MergeIdempotent | controllers/authController.js:110-118 | sending the same profile update twice leaves the same profile as sending it once |
| AuthController.MergeAssociative | controllers/authController.js:110-118 | two successive updates equal one update with the two incoming profiles merged |
| AuthController.MergeTouchesOnlyNamedEntry | controllers/authController.js:110-118 | an update naming one top-level entry (not `needs`) changes that entry alone; every other stored entry and every needs flag is kept |
| AuthController.ApplyUpdate | controllers/authController.js:103-119 | the name is replaced only by a truthy one; the profile is merged only when one is sent; identity, email, digest, role and creation time never change; a well-formed account stays well-formed |
| AuthController.UpdateUserProfile | controllers/authController.js:101-136 | 404 with no change iff the account is gone; otherwise exactly that record becomes its update; the 200 summary carries no digest; the indexes are preserved |
| ChatController.GetMessages | controllers/chatController.js:7-46 | always 200; an instructor without a target gets `[]`; an instructor with target `u` gets exactly the messages between self and `u` in both directions; anyone else gets exactly the messages they sent or received; each message appears as often as it is stored; the list is ascending by timestamp |
| ChatController.StudentSeesNoThirdPartyMessages | controllers/chatController.js:27-34 | a student's view never contains a message between two other accounts |
| ChatController.ConversationSharedByBothEnds | controllers/chatController.js:14-34 | a student–instructor message shows in the student's view and in the instructor's view of that student, and in no other student's view |
| ChatController.GetConversations | controllers/chatController.js:51-71 | always 200; every student account has a card; every card belongs to a student; no instructor is listed; under unique identities each student's card appears exactly once |
| ChatController.ResolveRecipient | controllers/chatController.js:84-100 | an instructor must name a recipient (else 400) and it is taken as given; for a student, the recipient is a stored instructor, and the lookup fails with 404 iff no instructor exists |
| ChatController.SoleInstructorReceives | controllers/chatController.js:95-99 | with exactly one instructor account, every student's message is routed to it |
| ChatController.SendMessage | controllers/chatController.js:76-117 | empty or missing text is 400; recipient refusals pass through; every refusal stores nothing; success appends exactly one unread message from the principal, with the principal's name and role copied and stamped `now`, and answers 201 with it |
| ReflectionController.CachedTitle | controllers/reflectionController.js:16-17 | the title of a video stored under the key, or `""` when there is none |
| ReflectionController.Upsert | controllers/reflectionController.js:20-42 | an existing record for the key is updated in place (same length), keeping its key and submission time; otherwise one record is appended with both times `now`; no other record changes; the key's record holds the new responses, title and update time; key uniqueness is preserved |
| ReflectionController.UpsertLeavesOneRecord | models/VideoReflection.js:24 | under the compound index, exactly one record holds the key after an upsert, and it carries the submitted responses |
| ReflectionController.SubmitTwice | controllers/reflectionController.js:20-42 | a second submission finds the first one's record and adds nothing; one record for the key holds the second responses; other records are untouched |
| ReflectionController.SubmitReflection | controllers/reflectionController.js:7-47 | 400 with no change iff `videoId` is falsy or `responses` is missing; otherwise the collection becomes the upsert; 200 iff a record existed, 201 iff one was created; the answer holds the submitted responses |
| ReflectionController.NewestFirst | controllers/reflectionController.js:61-62 | exactly the matching records, each as often as stored, in descending `submittedAt` order |
| ReflectionController.GetUserReflections | controllers/reflectionController.js:52-68 | always 200; exactly the caller's records (for one video when given), each as often as stored, newest submission first |
| ReflectionController.GetReflectionByVideo | controllers/reflectionController.js:73-88 | 404 iff the caller has no record for the video; otherwise that record, the only one under the unique index |
| ReflectionController.GetAllReflections | controllers/reflectionController.js:93-109 | always 200; exactly the records matching every filter given (all of them when none is given), each as often as stored, newest submission first |
| ReflectionController.ResubmissionReplacesResponses | controllers/reflectionController.js:25-32 | answers `{q1:"a"}` then `{q1:"b", q2:"c"}` for video 1 leave one record whose responses are exactly the second answers |
| ReflectionController.SoleRecordIsFound | controllers/reflectionController.js:75-81 | when one position holds the caller's record for the video, both reads return that record alone |
| VideoController.GetVideos | controllers/videoController.js:6-13 | always 200; a permutation of the catalogue, ascending by `videoId`, strictly so under the unique index |
| VideoController.GetVideoById | controllers/videoController.js:18-30 | 404 iff no video has the key; otherwise a stored video with that key |
| VideoController.CreateVideo | controllers/videoController.js:35-59 | 400 with no change iff the key lookup finds a video (any video when no key is sent); then 500 iff the key or the title is missing, or the title is empty; otherwise, and only then, success: exactly one video with the sent fields (form schema `[]` when absent), stamped `now`, is appended and 201 answers with it; the index is preserved |
| VideoController.Patch | controllers/videoController.js:69-75 | each of the six fields is replaced only by a truthy value, and a form schema whenever sent; `updatedAt` becomes `now`; the key and creation time are kept; a non-empty title stays non-empty |
| VideoController.PatchIdempotent | controllers/videoController.js:69-75 | applying the same update twice at the same time equals applying it once |
| VideoController.ZeroWeekNumberIgnored | controllers/videoController.js:73 | an update cannot set `weekNumber` to 0 |
| VideoController.UpdateVideo | controllers/videoController.js:64-85 | 404 with no change iff no video has the key; otherwise exactly that video becomes its patch and is answered with 200; the other videos and the index are preserved |
| VideoController.DeleteVideo | controllers/videoController.js:87-99 | 404 with no change iff no video has the key; otherwise exactly that video is removed; the others keep their order; afterwards no video has the key |
| Routes.AccessOf | routes/videoRoutes.js:86-133 | the gates as wired in the four routers (routes/authRoutes.js:96-181, routes/chatRoutes.js:84-86, routes/reflectionRoutes.js:101-153 and these lines): public exactly for register, login and the two video reads; instructor-only exactly for the three catalogue writes and the all-reflections listing; `protect` alone for the rest |
| Routes.IntendedAccessOf | controllers/chatController.js:48-51 | the documented gates: the same public routes, and the instructor-only routes plus the student list |
| Routes.InstructorOnlyEndpoints | routes/videoRoutes.js:87-133 | the catalogue writes and the all-reflections listing admit only instructors; they answer a stored student's valid token with 403 |
| Routes.StudentListsConversations | routes/chatRoutes.js:84 | as wired, a stored student with a valid token is admitted to the student list |
| Routes.ConversationsOnlyForInstructors | controllers/chatController.js:48-51 | under the documented gate, the student list admits only instructors and answers a student with 403 |
| Routes.IntendedDiffersOnlyForConversations | routes/chatRoutes.js:84-86 | the corrected gating table differs from the wired one on the student list alone |

## Left out

- The 500 branch that catches a store failure in every handler is not modelled. The store is an in-memory sequence that cannot fail; only schema validation failures are modelled as 500.
- Concurrency is not modelled. This includes the race between `findOne` and `create` in the reflection upsert, which only the store's compound index resolves. Handlers run one at a time.
- JWT and bcrypt are parameters. `verify` covers malformed, expired and badly signed tokens alike. The `findById` cast error, which the same `catch` reports as "token failed", is also folded into `verify`.
- RegisterUser: a password that is not a string, which also makes bcrypt throw, is not modelled. Only an absent one is.
- LoginUser: likewise, only an absent password is modelled as the bcrypt exception (500); a password that is not a string is not.
- RegisterUser: an email sent as JSON `null` is not modelled; a field is either absent or a string. Mongoose keeps a `null` filter value, so `findOne({ email: null })` matches no account (the email is required) and the source goes on to fail schema validation with 500, where the model, taking the field as absent, answers 400 once an account is stored.
- LoginUser: an email sent as JSON `null` is not modelled. The source's lookup then finds no account and answers 401, where the model, taking the field as absent, checks the first stored account's digest.
- CreateVideo: a `videoId` sent as JSON `null` is not modelled. The source's lookup then finds no video and creation fails schema validation with 500, where the model, taking the key as absent, answers 400 once a video is stored.
- Mongoose schema casting and strict mode are not modelled. Profile keys outside the schema are not dropped, and values are not cast to the declared types.
- MergeProfile: a `needs` value that is a string or an array is spread character by character or index by index in JavaScript. The model treats anything that is not a flag object as no flags.
- Mongoose `minimize`, which drops an empty `needs` object when saving, is not modelled.
- `populate` and `select` projections are not modelled. Messages and reflections are answered with their stored references, not embedded account summaries; the student list keeps the account id.
- The `parseInt` of path and query parameters, including `NaN`, is not modelled. The key reaches the handlers as an integer or as `None`.
- Numbers are unbounded integers. JavaScript floating-point values for `weekNumber`, scale answers and profile numbers are not modelled.
- The sorts are proved sorted and a permutation. The order among equal keys is unspecified in the store, and the model does not promise one.
- RegisterUser: the 400 branch for a falsy created document (controllers/authController.js:51-53) cannot be reached, because `create` either returns a document or throws. It is not modelled.
- Express path matching and the wiring beyond the gate are not modelled, including the fact that `/reflections/all` is registered before `/:videoId`. Only the gate in front of each handler is modelled (`Routes`).
- Token signing details are not modelled: the 30-day expiry and the embedded claims are inside `sign`.
- index.js (server bootstrap, CORS, the error handler) and the seed scripts are not part of this model.

## Findings

| source | as written | input that shows it | evidently intended | confidence | as-written member | corrected member |
|---|---|---|---|---|---|---|
| routes/chatRoutes.js:84 | `GET /messages/conversations` is guarded by `protect` only, although its handler is documented as instructor-only (controllers/chatController.js:50) | a stored student sends a valid bearer token; the gate admits the request, and the list of all students, with their emails and profiles, is returned | guard the route with `requireRole('instructor')` as well, so a student gets 403 | high (not executed) | Routes.StudentListsConversations | Routes.ConversationsOnlyForInstructors |

=== FILE: auth_controller.dfy ===
/** Account handlers: registration, login, reading and updating the caller's
    profile. Password hashing and comparison (bcrypt) and token signing
    (JWT, 30-day expiry) are parameters: `digest` is the bcrypt hash of the
    submitted password, `matches(plain, digest)` is bcrypt's comparison and
    `sign(id)` the token issued for an identity. */
module AuthController {
  import opened Common
  import opened UserModel
  import opened AuthMiddleware

  /** The account fields the auth handlers answer with: no digest, no creation time. */
  datatype Summary = Summary(id: UserId, name: string, email: string, role: Role, profile: Profile)

  /** A summary together with a freshly signed token. */
  datatype Session = Session(account: Summary, token: string)

  function SummaryOf(u: User): Summary {
    Summary(u.id, u.name, u.email, u.role, u.profile)
  }

  /** The record registration stores: always a student; `profile || {}`. */
  function NewStudent(id: UserId, name: string, email: string, digest: string,
                      profile: Option<Profile>, now: Clock): User
  {
    User(id, name, email, digest, Student, if profile.Some? then profile.value else map[], now)
  }

  /** POST /auth/register. An email that matches a stored account is refused with
      400 before anything is written (an absent email matches any account);
      hashing a missing password throws (500); a missing or empty name or email
      then fails schema validation (500). Otherwise exactly one student account is
      appended under a fresh identity and 201 is answered with its summary and a
      token. `digest` is the bcrypt hash of the password sent, None when none was. */
  method RegisterUser(users: UserCollection, name: Option<string>, email: Option<string>,
                      digest: Option<string>, profile: Option<Profile>, sign: UserId -> string, now: Clock)
    returns (r: Reply<Session>)
    requires users.Valid()
    modifies users
    ensures users.Valid()
    ensures r.Refused? ==> users.docs == old(users.docs) && users.nextId == old(users.nextId)
    ensures r == Refused(BAD_REQUEST, EmailTaken) <==> FindByEmail(old(users.docs), email).Some?
    ensures r == Refused(SERVER_ERROR, BcryptFailed) <==>
      FindByEmail(old(users.docs), email).None? && digest.None?
    ensures r == Refused(SERVER_ERROR, InvalidDocument) <==>
      FindByEmail(old(users.docs), email).None? && digest.Some? && (!TruthyText(name) || !TruthyText(email))
    ensures r.Done? <==>
      FindByEmail(old(users.docs), email).None? && digest.Some? && TruthyText(name) && TruthyText(email)
    ensures r.Done? ==>
      && r.status == CREATED
      && users.docs == old(users.docs) + [NewStudent(old(users.nextId), name.value, email.value, digest.value, profile, now)]
      && r.payload == Session(SummaryOf(users.docs[|old(users.docs)|]), sign(old(users.nextId)))
    ensures r.Done? ==> forall j :: 0 <= j < |old(users.docs)| ==> old(users.docs)[j].id != old(users.nextId)
  {
    if FindByEmail(users.docs, email).Some? {
      return Refused(BAD_REQUEST, EmailTaken);
    }
    if digest.None? {
      return Refused(SERVER_ERROR, BcryptFailed);
    }
    if !TruthyText(name) || !TruthyText(email) {
      return Refused(SERVER_ERROR, InvalidDocument);
    }
    var id := users.nextId;
    var user := NewStudent(id, name.value, email.value, digest.value, profile, now);
    users.docs := users.docs + [user];
    users.nextId := users.nextId + 1;
    r := Done(CREATED, Session(SummaryOf(user), sign(id)));
  }

  /** POST /auth/login: the first account matching the email (any account when no
      email is sent) is looked up; with none, 401. Comparing a missing password
      throws (500). Otherwise 200 with a session for that account when the password
      matches its digest, and the same 401 when it does not. The session is always
      that of the account whose digest was checked. */
  function LoginUser(users: seq<User>, email: Option<string>, password: Option<string>,
                     matches: (string, string) -> bool, sign: UserId -> string): (r: Reply<Session>)
    ensures r.Refused? ==> r == Refused(UNAUTHORIZED, BadCredentials) || r == Refused(SERVER_ERROR, BcryptFailed)
    ensures r == Refused(SERVER_ERROR, BcryptFailed) <==> FindByEmail(users, email).Some? && password.None?
    ensures r.Done? ==>
      && r.status == OK && password.Some?
      && exists i :: 0 <= i < |users| && (email.None? || users[i].email == email.value)
                     && (forall k :: 0 <= k < i ==> email.Some? && users[k].email != email.value)
                     && matches(password.value, users[i].password)
                     && r.payload == Session(SummaryOf(users[i]), sign(users[i].id))
    ensures email.None? && r.Done? ==>
      |users| > 0 && r.payload == Session(SummaryOf(users[0]), sign(users[0].id))
    ensures email.Some? && password.Some? && UniqueEmails(users) ==>
      (r.Done? <==> exists i :: 0 <= i < |users| && users[i].email == email.value
                                && matches(password.value, users[i].password))
    ensures email.None? && password.Some? ==>
      (r.Done? <==> |users| > 0 && matches(password.value, users[0].password))
  {
    match FindByEmail(users, email)
    case None => Refused(UNAUTHORIZED, BadCredentials)
    case Some(i) =>
      if password.None? then Refused(SERVER_ERROR, BcryptFailed)
      else if matches(password.value, users[i].password)
      then Done(OK, Session(SummaryOf(users[i]), sign(users[i].id)))
      else Refused(UNAUTHORIZED, BadCredentials)
  }

  /** The token issued for a stored account gets through `protect` as that
      account, provided JWT verifies its own signature for that identity and the
      token has no space in it. `RegisterUser` issues `sign` of the appended
      account's identity and `LoginUser` of the matched one's. */
  lemma SessionTokenAuthenticates(users: seq<User>, i: nat, sign: UserId -> string, verify: string -> Option<UserId>)
    requires UniqueIds(users) && i < |users|
    requires sign(users[i].id) != "" && ' ' !in sign(users[i].id)
    requires verify(sign(users[i].id)) == Some(users[i].id)
    ensures Protect(Some(Scheme + " " + sign(users[i].id)), verify, users) == Proceed(View(users[i]))
  {
    BearerTokenRoundTrip(sign(users[i].id));
    var k := FindById(users, users[i].id);
    assert k.Some? && users[k.value].id == users[i].id;
    assert k.value == i;
  }

  /** The session a successful login answers with is usable: its token gets
      through `protect` as the very account the session describes. */
  lemma LoginSessionAuthenticates(users: seq<User>, email: Option<string>, password: Option<string>,
                                  matches: (string, string) -> bool, sign: UserId -> string,
                                  verify: string -> Option<UserId>)
    requires UniqueIds(users)
    requires forall id: UserId :: sign(id) != "" && ' ' !in sign(id)
    requires forall id: UserId :: verify(sign(id)) == Some(id)
    requires LoginUser(users, email, password, matches, sign).Done?
    ensures exists i ::
              && 0 <= i < |users|
              && LoginUser(users, email, password, matches, sign).payload.account == SummaryOf(users[i])
              && Protect(Some(Scheme + " " + LoginUser(users, email, password, matches, sign).payload.token),
                         verify, users) == Proceed(View(users[i]))
  {
    var r := LoginUser(users, email, password, matches, sign);
    var i :| 0 <= i < |users| && r.payload == Session(SummaryOf(users[i]), sign(users[i].id));
    SessionTokenAuthenticates(users, i, sign, verify);
  }

  /** GET /auth/profile: always 200; the caller's stored account without its digest,
      or JSON null when the account has disappeared since the gate read it. */
  function GetUserProfile(users: seq<User>, principal: AccountView): (r: Reply<Option<AccountView>>)
    ensures r.Done? && r.status == OK
    ensures r.payload.Some? <==> exists i :: 0 <= i < |users| && users[i].id == principal.id
    ensures r.payload.Some? ==>
      exists i :: 0 <= i < |users| && users[i].id == principal.id && r.payload.value == View(users[i])
  {
    match FindById(users, principal.id)
    case None => Done(OK, None)
    case Some(i) => Done(OK, Some(View(users[i])))
  }

  /** The two-level merge of a profile update: top-level entries of the incoming
      profile win over the stored ones, entries it does not name are kept, and the
      `needs` entry is always the stored flags overlaid by the incoming flags,
      whatever the incoming profile holds under `needs`. */
  function MergeProfile(current: Profile, incoming: Profile): (merged: Profile)
    ensures merged.Keys == current.Keys + incoming.Keys + {NeedsKey}
    ensures forall k :: k in incoming && k != NeedsKey ==> merged[k] == incoming[k]
    ensures forall k :: k in current && k !in incoming && k != NeedsKey ==> merged[k] == current[k]
    ensures merged[NeedsKey].Flags? && NeedsOf(merged) == NeedsOf(current) + NeedsOf(incoming)
  {
    current + incoming + map[NeedsKey := Flags(NeedsOf(current) + NeedsOf(incoming))]
  }

  /** Flag by flag: a flag the incoming `needs` names takes its value, even false;
      a stored flag it does not name survives. */
  lemma MergeNeedsFlags(current: Profile, incoming: Profile, flag: string)
    ensures flag in NeedsOf(incoming) ==> NeedsOf(MergeProfile(current, incoming))[flag] == NeedsOf(incoming)[flag]
    ensures flag in NeedsOf(current) && flag !in NeedsOf(incoming) ==>
      NeedsOf(MergeProfile(current, incoming))[flag] == NeedsOf(current)[flag]
    ensures flag in NeedsOf(MergeProfile(current, incoming)) <==>
      flag in NeedsOf(current) || flag in NeedsOf(incoming)
  {
  }

  /** Sending the same profile update twice leaves what sending it once leaves. */
  lemma MergeIdempotent(current: Profile, incoming: Profile)
    ensures MergeProfile(MergeProfile(current, incoming), incoming) == MergeProfile(current, incoming)
  {
    var once := MergeProfile(current, incoming);
    var twice := MergeProfile(once, incoming);
    assert NeedsOf(twice) == NeedsOf(once);
    assert twice.Keys == once.Keys;
    forall k | k in once ensures twice[k] == once[k] {
    }
  }

  lemma OverwrittenEntry<K, V>(a: map<K, V>, b: map<K, V>, c: map<K, V>, key: K, v: V, w: V)
    ensures a + b + map[key := v] + c + map[key := w] == a + b + c + map[key := w]
  {
  }

  lemma OverwrittenInnerEntry<K, V>(a: map<K, V>, b: map<K, V>, c: map<K, V>, key: K, v: V, w: V)
    ensures a + (b + c + map[key := v]) + map[key := w] == a + b + c + map[key := w]
  {
  }

  /** Two successive updates leave what one update leaves whose profile is the
      first incoming profile merged with the second. */
  lemma MergeAssociative(current: Profile, first: Profile, second: Profile)
    ensures MergeProfile(MergeProfile(current, first), second) ==
            MergeProfile(current, MergeProfile(first, second))
  {
    MergedTwice(current, first, second);
    MergedPatch(current, first, second);
  }

  lemma MergedTwice(current: Profile, first: Profile, second: Profile)
    ensures MergeProfile(MergeProfile(current, first), second) ==
      current + first + second + map[NeedsKey := Flags(NeedsOf(current) + NeedsOf(first) + NeedsOf(second))]
  {
    var nc, nf, ns := NeedsOf(current), NeedsOf(first), NeedsOf(second);
    var inner := MergeProfile(current, first);
    assert NeedsOf(inner) == nc + nf;
    OverwrittenEntry(current, first, second, NeedsKey, Flags(nc + nf), Flags(nc + nf + ns));
  }

  lemma MergedPatch(current: Profile, first: Profile, second: Profile)
    ensures MergeProfile(current, MergeProfile(first, second)) ==
      current + first + second + map[NeedsKey := Flags(NeedsOf(current) + NeedsOf(first) + NeedsOf(second))]
  {
    var nc, nf, ns := NeedsOf(current), NeedsOf(first), NeedsOf(second);
    var patch := MergeProfile(first, second);
    assert NeedsOf(patch) == nf + ns;
    assert nc + (nf + ns) == nc + nf + ns;
    OverwrittenInnerEntry(current, first, second, NeedsKey, Flags(nf + ns), Flags(nc + nf + ns));
  }

  /** An update that names only the top-level entry `key` (not `needs`) changes that
      entry alone, besides normalising `needs` to the stored flags. */
  lemma MergeTouchesOnlyNamedEntry(current: Profile, key: string, value: Field)
    requires key != NeedsKey
    ensures var merged := MergeProfile(current, map[key := value]);
      && merged[key] == value
      && NeedsOf(merged) == NeedsOf(current)
      && forall k :: k in current && k != key && k != NeedsKey ==> k in merged && merged[k] == current[k]
  {
    var merged := MergeProfile(current, map[key := value]);
    assert NeedsOf(map[key := value]) == map[];
    assert NeedsOf(current) + map[] == NeedsOf(current);
  }

  /** The stored record after PUT /auth/profile: `name` only when truthy, the merged
      profile only when a profile was sent; identity, email, digest, role and
      creation time are never touched. */
  function ApplyUpdate(u: User, name: Option<string>, profile: Option<Profile>): (v: User)
    ensures v.id == u.id && v.email == u.email && v.password == u.password
    ensures v.role == u.role && v.createdAt == u.createdAt
    ensures TruthyText(name) ==> v.name == name.value
    ensures !TruthyText(name) ==> v.name == u.name
    ensures profile.None? ==> v.profile == u.profile
    ensures profile.Some? ==> v.profile == MergeProfile(u.profile, profile.value)
    ensures WellFormed(u) ==> WellFormed(v)
  {
    u.(name := if TruthyText(name) then name.value else u.name,
       profile := if profile.Some? then MergeProfile(u.profile, profile.value) else u.profile)
  }

  /** PUT /auth/profile: 404 and no change when the caller's account is gone;
      otherwise that one record is replaced by its update and 200 answers with its
      summary (never the digest). */
  method UpdateUserProfile(users: UserCollection, principal: AccountView,
                           name: Option<string>, profile: Option<Profile>)
    returns (r: Reply<Summary>)
    requires users.Valid()
    modifies users
    ensures users.Valid() && users.nextId == old(users.nextId)
    ensures r.Refused? <==> FindById(old(users.docs), principal.id).None?
    ensures r.Refused? ==> r == Refused(NOT_FOUND, AccountMissing) && users.docs == old(users.docs)
    ensures r.Done? ==>
      && r.status == OK
      && exists i :: 0 <= i < |old(users.docs)| && old(users.docs)[i].id == principal.id
                     && users.docs == old(users.docs)[i := ApplyUpdate(old(users.docs)[i], name, profile)]
                     && r.payload == SummaryOf(users.docs[i])
  {
    var found := FindById(users.docs, principal.id);
    if found.None? {
      return Refused(NOT_FOUND, AccountMissing);
    }
    var i := found.value;
    var updated := ApplyUpdate(users.docs[i], name, profile);
    users.docs := users.docs[i := updated];
    r := Done(OK, SummaryOf(updated));
  }
}

=== FILE: auth_middleware.dfy ===
/** The request gate (`protect` and `requireRole`). The principal a handler
    receives is an explicit value: the stored account named by a verified
    bearer token, re-read from the collection on every request and stripped
    of its password digest. Token verification (signature and expiry) is
    the parameter `verify`. */
module AuthMiddleware {
  import opened Common
  import opened UserModel

  const Scheme: string := "Bearer"

  /** `authorization && authorization.startsWith('Bearer')`; note that there is no
      space in the prefix tested. */
  predicate HasScheme(header: Option<string>) {
    header.Some? && |Scheme| <= |header.value| && header.value[..|Scheme|] == Scheme
  }

  /** The longest prefix of `s` without a space. */
  function UntilSpace(s: string): (r: string)
    ensures |r| <= |s| && r == s[..|r|]
    ensures ' ' !in r
    ensures |r| < |s| ==> s[|r|] == ' '
  {
    if |s| == 0 || s[0] == ' ' then "" else [s[0]] + UntilSpace(s[1..])
  }

  /** `s.split(' ')[1]`: the text between the first space and the next one (or the
      end); None (`undefined`) when `s` has no space at all. */
  function SecondField(s: string): (r: Option<string>)
    ensures r.None? <==> ' ' !in s
    ensures r.Some? ==> ' ' !in r.value
    ensures r.Some? ==>
      exists i :: 0 <= i < |s| && s[i] == ' ' && ' ' !in s[..i] && i + 1 + |r.value| <= |s|
                  && r.value == s[i + 1..i + 1 + |r.value|]
                  && (i + 1 + |r.value| == |s| || s[i + 1 + |r.value|] == ' ')
  {
    var head := UntilSpace(s);
    if |head| == |s| then
      assert s == head;
      None
    else
      var field := UntilSpace(s[|head| + 1..]);
      FieldAfterSpace(s, |head|);
      Some(field)
  }

  /** The run without spaces that starts after the first space at `i`. */
  lemma FieldAfterSpace(s: string, i: nat)
    requires i < |s| && UntilSpace(s) == s[..i]
    ensures s[i] == ' ' && ' ' !in s[..i]
    ensures var f := UntilSpace(s[i + 1..]);
      i + 1 + |f| <= |s| && f == s[i + 1..i + 1 + |f|] && (i + 1 + |f| == |s| || s[i + 1 + |f|] == ' ')
  {
    var f := UntilSpace(s[i + 1..]);
    assert s[i + 1..][..|f|] == s[i + 1..i + 1 + |f|];
  }

  /** The token `protect` hands to verification: the second field of a header that
      passes the scheme test, when that field is a non-empty string. */
  function BearerToken(header: Option<string>): (t: Option<string>)
    ensures t.Some? <==> HasScheme(header) && TruthyText(SecondField(header.value))
    ensures t.Some? ==> t == SecondField(header.value)
    ensures t.Some? ==> t.value != "" && ' ' !in t.value
  {
    if HasScheme(header) && TruthyText(SecondField(header.value))
    then SecondField(header.value)
    else None
  }

  /** A space-free prefix followed by a space, or by nothing, is exactly what
      `UntilSpace` takes. */
  lemma {:induction false} UntilSpaceTakes(a: string, rest: string)
    requires ' ' !in a
    requires rest == [] || rest[0] == ' '
    ensures UntilSpace(a + rest) == a
  {
    if |a| > 0 {
      assert (a + rest)[1..] == a[1..] + rest;
      UntilSpaceTakes(a[1..], rest);
      assert a == [a[0]] + a[1..];
    } else {
      assert a + rest == rest;
    }
  }

  /** The second field of `a b...` is `b`, whatever follows `b` after a space: so
      "Bearer a b" yields "a", and "Bearer  x" (two spaces) yields "". */
  lemma SecondFieldIs(a: string, b: string, rest: string)
    requires ' ' !in a && ' ' !in b
    requires rest == [] || rest[0] == ' '
    ensures SecondField(a + " " + b + rest) == Some(b)
  {
    var s := a + " " + b + rest;
    assert s == a + (" " + b + rest);
    UntilSpaceTakes(a, " " + b + rest);
    assert s[|a| + 1..] == b + rest;
    UntilSpaceTakes(b, rest);
  }

  /** The header a client builds, `"Bearer " + token`, gives back exactly that
      token whenever the token is non-empty and contains no space. */
  lemma BearerTokenRoundTrip(token: string)
    requires token != "" && ' ' !in token
    ensures BearerToken(Some(Scheme + " " + token)) == Some(token)
  {
    var h := Scheme + " " + token;
    assert h[..|Scheme|] == Scheme;
    SecondFieldIs(Scheme, token, "");
    assert Scheme + " " + token + "" == h;
  }

  /** The scheme test has no space in it: anything without a space may follow
      "Bearer" before the token ("BearerXYZ tok" yields "tok"), and what follows the
      token after a further space is ignored. */
  lemma SchemeNeedsNoSpace(junk: string, token: string, rest: string)
    requires ' ' !in junk && token != "" && ' ' !in token
    requires rest == [] || rest[0] == ' '
    ensures BearerToken(Some(Scheme + junk + " " + token + rest)) == Some(token)
  {
    var h := Scheme + junk + " " + token + rest;
    assert h[..|Scheme|] == Scheme;
    assert ' ' !in Scheme + junk;
    SecondFieldIs(Scheme + junk, token, rest);
  }

  /** A header that is exactly "Bearer", "Bearer" followed by one space and nothing
      else, or "Bearer" followed by two spaces, carries no token, so it takes the
      "no token provided" branch. */
  lemma BareSchemeHasNoToken(rest: string)
    ensures BearerToken(Some(Scheme)) == None
    ensures BearerToken(Some(Scheme + " ")) == None
    ensures BearerToken(Some(Scheme + "  " + rest)) == None
  {
    assert ' ' !in Scheme;
    SecondFieldIs(Scheme, "", "");
    assert Scheme + " " + "" + "" == Scheme + " ";
    SecondFieldIs(Scheme, "", " " + rest);
    assert Scheme + " " + "" + (" " + rest) == Scheme + "  " + rest;
  }

  /** The outcome of a gate: continue with a principal, or answer with a status. */
  datatype Gate = Proceed(principal: AccountView) | Deny(status: nat, why: Why)

  /** `protect`: every refusal is 401 and is classified by the first step that fails;
      the request proceeds exactly when the token verifies to an identity that is
      stored, and the principal is that stored account without its digest. */
  function Protect(header: Option<string>, verify: string -> Option<UserId>, users: seq<User>): (g: Gate)
    ensures g.Deny? ==> g.status == UNAUTHORIZED
    ensures g.Deny? && g.why == NoToken <==> !HasScheme(header)
    ensures g.Deny? && g.why == NoTokenProvided <==>
      HasScheme(header) && !TruthyText(SecondField(header.value))
    ensures g.Deny? && g.why == TokenFailed <==>
      BearerToken(header).Some? && verify(BearerToken(header).value).None?
    ensures g.Deny? && g.why == UserNotFound <==>
      BearerToken(header).Some? && verify(BearerToken(header).value).Some? &&
      forall i :: 0 <= i < |users| ==> users[i].id != verify(BearerToken(header).value).value
    ensures g.Proceed? <==>
      BearerToken(header).Some? && verify(BearerToken(header).value).Some? &&
      exists i :: 0 <= i < |users| && users[i].id == verify(BearerToken(header).value).value
    ensures g.Deny? ==> g.why in {NoToken, NoTokenProvided, TokenFailed, UserNotFound}
    ensures g.Proceed? ==>
      BearerToken(header).Some? && verify(BearerToken(header).value) == Some(g.principal.id) &&
      exists i :: 0 <= i < |users| && users[i].id == g.principal.id && g.principal == View(users[i])
  {
    match BearerToken(header)
    case None =>
      if !HasScheme(header) then Deny(UNAUTHORIZED, NoToken) else Deny(UNAUTHORIZED, NoTokenProvided)
    case Some(token) =>
      match verify(token)
      case None => Deny(UNAUTHORIZED, TokenFailed)
      case Some(id) =>
        match FindById(users, id)
        case None => Deny(UNAUTHORIZED, UserNotFound)
        case Some(i) => Proceed(View(users[i]))
  }

  /** The principal is re-read on every request: after the stored account of a
      verified identity is replaced (by any record with the same identity), the
      very same header yields the new record, role and profile included. */
  lemma ProtectReadsCurrentRecord(header: Option<string>, verify: string -> Option<UserId>,
                                  users: seq<User>, i: nat, u: User)
    requires UniqueIds(users) && i < |users| && u.id == users[i].id
    requires BearerToken(header).Some? && verify(BearerToken(header).value) == Some(u.id)
    ensures Protect(header, verify, users[i := u]) == Proceed(View(u))
  {
    var after := users[i := u];
    assert after[i].id == u.id;
    var k := FindById(after, u.id);
    assert k.Some?;
    assert after[k.value].id == users[k.value].id;
    assert k.value == i;
  }

  /** `requireRole(role)`: continue exactly when a principal is present and holds the
      role; otherwise 403. */
  function RequireRole(role: Role, user: Option<AccountView>): (g: Gate)
    ensures g.Proceed? <==> user.Some? && user.value.role == role
    ensures g.Proceed? ==> g.principal == user.value
    ensures g.Deny? ==> g == Deny(FORBIDDEN, InsufficientRole)
  {
    if user.Some? && user.value.role == role then Proceed(user.value) else Deny(FORBIDDEN, InsufficientRole)
  }

  /** How a route is guarded: not at all, by `protect`, or by `protect` followed by
      `requireRole(role)`. */
  datatype Access = Public | Authenticated | Restricted(role: Role)

  datatype Admission = Anonymous | Admitted(principal: AccountView) | Rejected(status: nat, why: Why)

  /** The middleware chain in front of a handler. */
  function Admit(access: Access, header: Option<string>, verify: string -> Option<UserId>,
                 users: seq<User>): (a: Admission)
    ensures a.Anonymous? <==> access.Public?
    ensures a.Admitted? <==>
      !access.Public? && Protect(header, verify, users).Proceed? &&
      (access.Restricted? ==> Protect(header, verify, users).principal.role == access.role)
    ensures a.Rejected? ==> a.status in {UNAUTHORIZED, FORBIDDEN}
    ensures a.Admitted? ==> Protect(header, verify, users) == Proceed(a.principal)
    ensures a.Admitted? && access.Restricted? ==> a.principal.role == access.role
    ensures a.Rejected? && a.status == UNAUTHORIZED <==> !access.Public? && Protect(header, verify, users).Deny?
    ensures a.Rejected? && a.status == FORBIDDEN <==>
      access.Restricted? && Protect(header, verify, users).Proceed? &&
      Protect(header, verify, users).principal.role != access.role
  {
    match access
    case Public => Anonymous
    case Authenticated =>
      (match Protect(header, verify, users)
       case Proceed(p) => Admitted(p)
       case Deny(s, w) => Rejected(s, w))
    case Restricted(role) =>
      (match Protect(header, verify, users)
       case Deny(s, w) => Rejected(s, w)
       case Proceed(p) =>
         match RequireRole(role, Some(p))
         case Proceed(q) => Admitted(q)
         case Deny(s, w) => Rejected(s, w))
  }

  /** A role-restricted route admits a request only when the account stored under
      the token's identity holds that role now, whatever it held when the token
      was issued. */
  lemma {:induction false} RestrictedAdmitsOnlyStoredRole(role: Role, header: Option<string>,
                                                          verify: string -> Option<UserId>, users: seq<User>)
    requires Admit(Restricted(role), header, verify, users).Admitted?
    ensures BearerToken(header).Some? && verify(BearerToken(header).value).Some?
    ensures exists i :: 0 <= i < |users| && users[i].id == verify(BearerToken(header).value).value &&
                        users[i].role == role
  {
    var p := Admit(Restricted(role), header, verify, users).principal;
    var i :| 0 <= i < |users| && users[i].id == p.id && p == View(users[i]);
    assert users[i].role == role;
  }
}

=== FILE: chat_controller.dfy ===
/** Messaging: conversations are not stored; each view is a role-dependent
    filter over the flat message log, sorted by timestamp. */
module ChatController {
  import opened Common
  import opened UserModel
  import opened MessageModel
  import Seqs

  /** Which messages the `getMessages` query selects for a principal. An
      instructor sees the exchange with the selected user, in both directions,
      and nothing without a selection; anyone else sees every message they
      sent or received. */
  predicate Visible(principal: AccountView, target: Option<UserId>, m: Message) {
    if principal.role == Instructor then
      target.Some? &&
      ((m.sender == principal.id && m.recipient == target.value) ||
       (m.sender == target.value && m.recipient == principal.id))
    else
      m.sender == principal.id || m.recipient == principal.id
  }

  /** GET /messages: always 200. An instructor without `userId` gets the empty list;
      otherwise every visible message of the log, each as often as it is stored,
      in ascending timestamp order. */
  function GetMessages(principal: AccountView, target: Option<UserId>, log: seq<Message>): (r: Reply<seq<Message>>)
    ensures r.Done? && r.status == OK
    ensures principal.role == Instructor && target.None? ==> r.payload == []
    ensures principal.role == Instructor && target.Some? ==>
      forall m :: m in r.payload <==>
        m in log && ((m.sender == principal.id && m.recipient == target.value) ||
                     (m.sender == target.value && m.recipient == principal.id))
    ensures principal.role != Instructor ==>
      forall m :: m in r.payload <==> m in log && (m.sender == principal.id || m.recipient == principal.id)
    ensures forall m :: multiset(r.payload)[m] == if Visible(principal, target, m) then multiset(log)[m] else 0
    ensures forall i, j :: 0 <= i < j < |r.payload| ==> r.payload[i].timestamp <= r.payload[j].timestamp
  {
    if principal.role == Instructor && target.None? then
      Done(OK, [])
    else
      var selected := Seqs.Filter(log, (m: Message) => Visible(principal, target, m));
      var sorted := Seqs.SortBy(selected, (m: Message) => m.timestamp);
      assert forall m :: m in sorted <==> m in multiset(selected);
      Done(OK, sorted)
  }

  /** A student's view never contains a message between two other accounts. */
  lemma StudentSeesNoThirdPartyMessages(student: AccountView, log: seq<Message>, m: Message)
    requires student.role == Student
    requires m.sender != student.id && m.recipient != student.id
    ensures m !in GetMessages(student, None, log).payload
  {
  }

  /** A message between a student and an instructor shows both in the student's
      view and in the instructor's view of that student, and in no other student's. */
  lemma ConversationSharedByBothEnds(student: AccountView, instructor: AccountView, other: AccountView,
                                     log: seq<Message>, m: Message)
    requires student.role == Student && instructor.role == Instructor && other.role == Student
    requires other.id != student.id && other.id != instructor.id
    requires m in log
    requires (m.sender == student.id && m.recipient == instructor.id) ||
             (m.sender == instructor.id && m.recipient == student.id)
    ensures m in GetMessages(student, None, log).payload
    ensures m in GetMessages(instructor, Some(student.id), log).payload
    ensures m !in GetMessages(other, None, log).payload
  {
  }

  /** A row of GET /messages/conversations: `select('name email profile')`. */
  datatype StudentCard = StudentCard(id: UserId, name: string, email: string, profile: Profile)

  function CardOf(u: User): StudentCard {
    StudentCard(u.id, u.name, u.email, u.profile)
  }

  /** GET /messages/conversations: always 200; one card per student account, in
      stored order, and no card for any instructor. Under unique identities each
      student is listed exactly once. */
  function GetConversations(users: seq<User>): (r: Reply<seq<StudentCard>>)
    ensures r.Done? && r.status == OK
    ensures |r.payload| <= |users|
    ensures forall u :: u in users && u.role == Student ==> CardOf(u) in r.payload
    ensures forall c :: c in r.payload ==> exists u :: u in users && u.role == Student && CardOf(u) == c
    ensures UniqueIds(users) ==>
      forall u :: u in users && u.role == Student ==> multiset(r.payload)[CardOf(u)] == 1
  {
    var students := Seqs.Filter(users, (u: User) => u.role == Student);
    var cards := Seqs.Map(students, CardOf);
    assert forall u :: u in students ==> CardOf(u) in cards by {
      forall u | u in students ensures CardOf(u) in cards {
        var k :| 0 <= k < |students| && students[k] == u;
        assert cards[k] == CardOf(u);
      }
    }
    assert forall c :: c in cards ==> exists u :: u in students && CardOf(u) == c by {
      forall c | c in cards ensures exists u :: u in students && CardOf(u) == c {
        var k :| 0 <= k < |cards| && cards[k] == c;
        assert students[k] in students;
      }
    }
    assert UniqueIds(users) ==>
      forall u :: u in users && u.role == Student ==> multiset(cards)[CardOf(u)] == 1 by {
      if UniqueIds(users) {
        forall u | u in users && u.role == Student ensures multiset(cards)[CardOf(u)] == 1 {
          forall y | y in students && CardOf(y) == CardOf(u) ensures y == u {
            SameIdSameUser(users, y, u);
          }
          Seqs.MapCount(students, CardOf, u);
          UserOccursOnce(users, u);
        }
      }
    }
    Done(OK, cards)
  }

  /** Under unique identities, two stored accounts with the same identity are one. */
  lemma SameIdSameUser(users: seq<User>, x: User, y: User)
    requires UniqueIds(users) && x in users && y in users && x.id == y.id
    ensures x == y
  {
    var i :| 0 <= i < |users| && users[i] == x;
    var j :| 0 <= j < |users| && users[j] == y;
    assert !(i < j) && !(j < i);
  }

  /** Under unique identities every stored account occurs once. */
  lemma UserOccursOnce(users: seq<User>, u: User)
    requires UniqueIds(users) && u in users
    ensures multiset(users)[u] == 1
  {
    var i :| 0 <= i < |users| && users[i] == u;
    assert users == users[..i] + [u] + users[i + 1..];
    assert forall k :: 0 <= k < i ==> users[k].id != u.id;
    assert u !in users[..i];
    assert forall k :: i < k < |users| ==> users[k].id != u.id;
    assert u !in users[i + 1..];
  }

  /** Where a new message goes: a recipient, or the status and reason for refusing. */
  datatype Routing = Resolved(recipient: UserId) | Unresolved(status: nat, why: Why)

  /** The recipient of a new message. An instructor must name one (a falsy
      `recipientId` is 400) and it is taken as given, without checking that the
      account exists; for anyone else it is the first stored instructor, 404 when
      there is none. */
  function ResolveRecipient(sender: AccountView, recipientId: Option<UserId>, users: seq<User>): (r: Routing)
    ensures sender.role == Instructor ==>
      r == (if recipientId.Some? then Resolved(recipientId.value) else Unresolved(BAD_REQUEST, RecipientRequired))
    ensures sender.role != Instructor && r.Resolved? ==>
      exists i :: 0 <= i < |users| && users[i].id == r.recipient && users[i].role == Instructor
    ensures sender.role != Instructor ==>
      (r.Unresolved? <==> forall i :: 0 <= i < |users| ==> users[i].role != Instructor)
    ensures sender.role != Instructor && r.Unresolved? ==> r == Unresolved(NOT_FOUND, NoInstructor)
  {
    if sender.role == Instructor then
      if recipientId.Some? then Resolved(recipientId.value) else Unresolved(BAD_REQUEST, RecipientRequired)
    else
      match FindByRole(users, Instructor)
      case None => Unresolved(NOT_FOUND, NoInstructor)
      case Some(i) => Resolved(users[i].id)
  }

  /** When exactly one instructor account exists, every student's message goes to it. */
  lemma SoleInstructorReceives(sender: AccountView, users: seq<User>, k: nat, recipientId: Option<UserId>)
    requires sender.role == Student
    requires k < |users| && users[k].role == Instructor
    requires forall i :: 0 <= i < |users| && i != k ==> users[i].role != Instructor
    ensures ResolveRecipient(sender, recipientId, users) == Resolved(users[k].id)
  {
    var found := FindByRole(users, Instructor);
    assert found.Some?;
  }

  /** POST /messages. Empty or missing text is 400; then the recipient is resolved;
      on success exactly one message is appended, from the principal, with the
      principal's current name and role copied onto it, unread, stamped `now`,
      and 201 answers with it. Every refusal leaves the log unchanged. */
  method SendMessage(users: UserCollection, messages: MessageCollection, sender: AccountView,
                     text: Option<string>, recipientId: Option<UserId>, now: Clock)
    returns (r: Reply<Message>)
    requires messages.Valid()
    modifies messages
    ensures messages.Valid()
    ensures !TruthyText(text) ==> r == Refused(BAD_REQUEST, TextRequired)
    ensures r.Refused? ==> messages.docs == old(messages.docs)
    ensures TruthyText(text) && ResolveRecipient(sender, recipientId, users.docs).Unresolved? ==>
      r == Refused(ResolveRecipient(sender, recipientId, users.docs).status,
                   ResolveRecipient(sender, recipientId, users.docs).why)
    ensures r.Done? <==> TruthyText(text) && ResolveRecipient(sender, recipientId, users.docs).Resolved?
    ensures r.Done? ==>
      && r.status == CREATED
      && r.payload == Message(sender.id, ResolveRecipient(sender, recipientId, users.docs).recipient,
                              sender.name, sender.role, text.value, false, now)
      && messages.docs == old(messages.docs) + [r.payload]
  {
    if !TruthyText(text) {
      return Refused(BAD_REQUEST, TextRequired);
    }
    var recipient := ResolveRecipient(sender, recipientId, users.docs);
    if recipient.Unresolved? {
      return Refused(recipient.status, recipient.why);
    }
    var m := Message(sender.id, recipient.recipient, sender.name, sender.role, text.value, false, now);
    messages.docs := messages.docs + [m];
    r := Done(CREATED, m);
  }
}

=== FILE: common.dfy ===
/** Values shared by every handler: optional request fields, the HTTP reply
    shape, the status codes the handlers use and JavaScript truthiness. */
module Common {

  datatype Option<T> = None | Some(value: T)

  /** Milliseconds since the epoch; every handler that stamps a record takes it as a parameter. */
  type Clock = int

  /** A storage-assigned document identity (a Mongo ObjectId). */
  type UserId = nat

  const OK: nat := 200
  const CREATED: nat := 201
  const BAD_REQUEST: nat := 400
  const UNAUTHORIZED: nat := 401
  const FORBIDDEN: nat := 403
  const NOT_FOUND: nat := 404
  const SERVER_ERROR: nat := 500

  /** Why a handler refused; the localized message text is not modelled. */
  datatype Why =
    | NoToken             // no Authorization header, or it does not start with "Bearer"
    | NoTokenProvided     // "Bearer" with no second space-separated field
    | TokenFailed         // the token did not verify
    | UserNotFound        // the token names no stored account
    | InsufficientRole    // requireRole rejected the principal
    | EmailTaken          // registration with an email already stored
    | InvalidDocument     // the store's schema validation rejected a write
    | BadCredentials      // login failed
    | BcryptFailed        // bcrypt threw: no password was sent to hash or compare
    | AccountMissing      // profile update for an account no longer stored
    | TextRequired        // message without text
    | RecipientRequired   // instructor message without recipientId
    | NoInstructor        // student message while no instructor account exists
    | FieldsRequired      // reflection without videoId or responses
    | ReflectionMissing   // no reflection for (caller, videoId)
    | VideoExists         // create with a videoId already stored
    | VideoMissing        // no video with that videoId

  /** What a handler sends back: a status and a payload, or a status and the reason for refusing. */
  datatype Reply<T> = Done(status: nat, payload: T) | Refused(status: nat, why: Why)

  /** JavaScript truthiness of an optional string request field: absent and "" are falsy. */
  predicate TruthyText(s: Option<string>) {
    s.Some? && s.value != ""
  }

  /** JavaScript truthiness of an optional number request field: absent and 0 are falsy. */
  predicate TruthyNumber(n: Option<int>) {
    n.Some? && n.value != 0
  }
}

=== FILE: message_model.dfy ===
/** The message log: a flat collection of one-to-one messages from which
    every conversation view is derived. */
module MessageModel {
  import opened Common
  import opened UserModel

  /** A stored message. `senderName` and `senderRole` are copied from the sender
      when the message is written and never refreshed; `read` is never set by
      any handler. */
  datatype Message = Message(
    sender: UserId,
    recipient: UserId,
    senderName: string,
    senderRole: Role,
    text: string,
    read: bool,
    timestamp: Clock)

  /** The `messages` collection, in insertion order. */
  class MessageCollection {
    var docs: seq<Message>

    /** Schema validation: `text` is required, so never empty. */
    ghost predicate Valid()
      reads this
    {
      forall i :: 0 <= i < |docs| ==> docs[i].text != ""
    }

    constructor ()
      ensures Valid() && docs == []
    {
      docs := [];
    }
  }
}

=== FILE: reflection_controller.dfy ===
/** Reflection handlers: the upsert keyed by (caller, videoId) and the
    filtered, newest-first reads. */
module ReflectionController {
  import opened Common
  import opened UserModel
  import opened VideoModel
  import opened ReflectionModel
  import Seqs

  /** The title cached on a submission: that of the first video stored under the
      key, or "" when there is none (a miss is not an error). */
  function CachedTitle(videos: seq<Video>, videoId: int): (title: string)
    ensures (forall i :: 0 <= i < |videos| ==> videos[i].videoId != videoId) ==> title == ""
    ensures (exists i :: 0 <= i < |videos| && videos[i].videoId == videoId) ==>
      exists i :: 0 <= i < |videos| && videos[i].videoId == videoId && title == videos[i].title
  {
    match FindVideo(videos, videoId)
    case None => ""
    case Some(i) => videos[i].title
  }

  /** The collection after a valid submission by `user` for `videoId`: the record
      already stored under that key has its responses replaced wholesale and its
      title and update time refreshed in place; without one, a record stamped
      `now` is appended. No other record changes. */
  function Upsert(rs: seq<Reflection>, user: UserId, videoId: int, title: string,
                  responses: Responses, now: Clock): (after: seq<Reflection>)
    ensures FindReflection(rs, user, videoId).Some? ==> |after| == |rs|
    ensures FindReflection(rs, user, videoId).None? ==> |after| == |rs| + 1
    ensures forall j :: 0 <= j < |rs| && !(rs[j].user == user && rs[j].videoId == videoId) ==> after[j] == rs[j]
    ensures exists i :: 0 <= i < |after| && after[i].user == user && after[i].videoId == videoId
                        && after[i].responses == responses && after[i].videoTitle == title
                        && after[i].updatedAt == now
    ensures FindReflection(rs, user, videoId).Some? ==>
      var i := FindReflection(rs, user, videoId).value;
      after[i].submittedAt == rs[i].submittedAt && after[i].user == user && after[i].videoId == videoId
    ensures FindReflection(rs, user, videoId).None? ==>
      after[|rs|] == Reflection(user, videoId, title, responses, now, now)
    ensures UniqueKeys(rs) ==> UniqueKeys(after)
  {
    match FindReflection(rs, user, videoId)
    case Some(i) =>
      var after := rs[i := rs[i].(responses := responses, videoTitle := title, updatedAt := now)];
      assert after[i].responses == responses;
      after
    case None =>
      var after := rs + [Reflection(user, videoId, title, responses, now, now)];
      assert after[|rs|].responses == responses;
      after
  }

  /** Under the unique index, the collection holds exactly one record for the key
      after an upsert, and it carries the submitted responses. */
  lemma {:induction false} UpsertLeavesOneRecord(rs: seq<Reflection>, user: UserId, videoId: int, title: string,
                                                 responses: Responses, now: Clock)
    requires UniqueKeys(rs)
    ensures var after := Upsert(rs, user, videoId, title, responses, now);
      exists i :: 0 <= i < |after| && after[i].user == user && after[i].videoId == videoId
                  && after[i].responses == responses
                  && forall j :: 0 <= j < |after| && j != i ==> !(after[j].user == user && after[j].videoId == videoId)
  {
    var after := Upsert(rs, user, videoId, title, responses, now);
    var i :| 0 <= i < |after| && after[i].user == user && after[i].videoId == videoId
             && after[i].responses == responses;
    forall j | 0 <= j < |after| && j != i ensures !(after[j].user == user && after[j].videoId == videoId) {
      if j < i {
        assert !(after[j].user == after[i].user && after[j].videoId == after[i].videoId);
      } else {
        assert !(after[i].user == after[j].user && after[i].videoId == after[j].videoId);
      }
    }
  }

  /** Submitting twice for the same (user, videoId): the second submission finds the
      record the first one left, adds nothing, and leaves one record for the key
      holding the second responses; every other record is as before the first. */
  lemma {:induction false} SubmitTwice(rs: seq<Reflection>, user: UserId, videoId: int,
                                       title1: string, responses1: Responses, now1: Clock,
                                       title2: string, responses2: Responses, now2: Clock)
    requires UniqueKeys(rs)
    ensures var once := Upsert(rs, user, videoId, title1, responses1, now1);
      var twice := Upsert(once, user, videoId, title2, responses2, now2);
      && FindReflection(once, user, videoId).Some?
      && |twice| == |once|
      && UniqueKeys(twice)
      && (forall j :: 0 <= j < |rs| && !(rs[j].user == user && rs[j].videoId == videoId) ==> twice[j] == rs[j])
      && exists i :: 0 <= i < |twice| && twice[i].user == user && twice[i].videoId == videoId
                     && twice[i].responses == responses2
                     && forall j :: 0 <= j < |twice| && j != i ==> !(twice[j].user == user && twice[j].videoId == videoId)
  {
    var once := Upsert(rs, user, videoId, title1, responses1, now1);
    var k :| 0 <= k < |once| && once[k].user == user && once[k].videoId == videoId;
    assert FindReflection(once, user, videoId).Some?;
    UpsertLeavesOneRecord(once, user, videoId, title2, responses2, now2);
    var twice := Upsert(once, user, videoId, title2, responses2, now2);
    forall j | 0 <= j < |rs| && !(rs[j].user == user && rs[j].videoId == videoId) ensures twice[j] == rs[j] {
      assert once[j] == rs[j];
    }
  }

  /** POST /reflections. A falsy `videoId` (absent or 0) or missing `responses` is
      400 with no change; otherwise the upsert is applied, answering 200 when a
      record for (caller, videoId) already existed and 201 when it was created, in
      both cases with the stored record. */
  method SubmitReflection(videos: VideoCollection, reflections: ReflectionCollection, principal: AccountView,
                          videoId: Option<int>, responses: Option<Responses>, now: Clock)
    returns (r: Reply<Reflection>)
    requires reflections.Valid()
    modifies reflections
    ensures reflections.Valid()
    ensures r.Refused? <==> !TruthyNumber(videoId) || responses.None?
    ensures r.Refused? ==> r == Refused(BAD_REQUEST, FieldsRequired) && reflections.docs == old(reflections.docs)
    ensures r.Done? ==>
      && reflections.docs == Upsert(old(reflections.docs), principal.id, videoId.value,
                                    CachedTitle(videos.docs, videoId.value), responses.value, now)
      && (r.status == OK <==> FindReflection(old(reflections.docs), principal.id, videoId.value).Some?)
      && (r.status == CREATED <==> FindReflection(old(reflections.docs), principal.id, videoId.value).None?)
      && r.payload in reflections.docs
      && r.payload.user == principal.id && r.payload.videoId == videoId.value
      && r.payload.responses == responses.value && r.payload.updatedAt == now
  {
    if !TruthyNumber(videoId) || responses.None? {
      return Refused(BAD_REQUEST, FieldsRequired);
    }
    var key := videoId.value;
    var title := CachedTitle(videos.docs, key);
    var found := FindReflection(reflections.docs, principal.id, key);
    if found.Some? {
      var i := found.value;
      var record := reflections.docs[i].(responses := responses.value, videoTitle := title, updatedAt := now);
      reflections.docs := reflections.docs[i := record];
      r := Done(OK, record);
    } else {
      var record := Reflection(principal.id, key, title, responses.value, now, now);
      reflections.docs := reflections.docs + [record];
      r := Done(CREATED, record);
    }
  }

  /** The records satisfying `p`, newest submission first: `find(filter).sort({ submittedAt: -1 })`. */
  function NewestFirst(rs: seq<Reflection>, p: Reflection -> bool): (r: seq<Reflection>)
    ensures forall x :: multiset(r)[x] == if p(x) then multiset(rs)[x] else 0
    ensures forall x :: x in r <==> x in rs && p(x)
    ensures forall i, j :: 0 <= i < j < |r| ==> r[i].submittedAt >= r[j].submittedAt
  {
    var selected := Seqs.Filter(rs, p);
    var sorted := Seqs.SortBy(selected, (x: Reflection) => -x.submittedAt);
    assert forall x :: x in sorted <==> x in multiset(selected);
    sorted
  }

  /** GET /reflections: always 200; exactly the caller's records, restricted to one
      video when `videoId` is given, newest submission first. */
  function GetUserReflections(rs: seq<Reflection>, principal: AccountView, videoId: Option<int>)
    : (r: Reply<seq<Reflection>>)
    ensures r.Done? && r.status == OK
    ensures forall x :: x in r.payload <==>
      x in rs && x.user == principal.id && (videoId.None? || x.videoId == videoId.value)
    ensures forall x :: multiset(r.payload)[x] ==
                        if x.user == principal.id && (videoId.None? || x.videoId == videoId.value)
                        then multiset(rs)[x] else 0
    ensures forall i, j :: 0 <= i < j < |r.payload| ==> r.payload[i].submittedAt >= r.payload[j].submittedAt
  {
    Done(OK, NewestFirst(rs, (x: Reflection) => x.user == principal.id && (videoId.None? || x.videoId == videoId.value)))
  }

  /** GET /reflections/:videoId: the caller's record for that video with 200, or 404
      when there is none; under the unique index the record is the only one. */
  function GetReflectionByVideo(rs: seq<Reflection>, principal: AccountView, videoId: int): (r: Reply<Reflection>)
    ensures r.Refused? <==> forall j :: 0 <= j < |rs| ==> !(rs[j].user == principal.id && rs[j].videoId == videoId)
    ensures r.Refused? ==> r == Refused(NOT_FOUND, ReflectionMissing)
    ensures r.Done? ==> r.status == OK && r.payload in rs && r.payload.user == principal.id && r.payload.videoId == videoId
    ensures r.Done? && UniqueKeys(rs) ==>
      forall j :: 0 <= j < |rs| && rs[j].user == principal.id && rs[j].videoId == videoId ==> rs[j] == r.payload
  {
    match FindReflection(rs, principal.id, videoId)
    case None => Refused(NOT_FOUND, ReflectionMissing)
    case Some(i) => Done(OK, rs[i])
  }

  /** GET /reflections/all: always 200; the records matching every filter given
      (`videoId`, `userId`), newest submission first. */
  function GetAllReflections(rs: seq<Reflection>, videoId: Option<int>, userId: Option<UserId>)
    : (r: Reply<seq<Reflection>>)
    ensures r.Done? && r.status == OK
    ensures forall x :: x in r.payload <==>
      x in rs && (videoId.None? || x.videoId == videoId.value) && (userId.None? || x.user == userId.value)
    ensures forall x :: multiset(r.payload)[x] ==
                        if (videoId.None? || x.videoId == videoId.value) && (userId.None? || x.user == userId.value)
                        then multiset(rs)[x] else 0
    ensures videoId.None? && userId.None? ==> multiset(r.payload) == multiset(rs)
    ensures forall i, j :: 0 <= i < j < |r.payload| ==> r.payload[i].submittedAt >= r.payload[j].submittedAt
  {
    Done(OK, NewestFirst(rs, (x: Reflection) => (videoId.None? || x.videoId == videoId.value) &&
                                                (userId.None? || x.user == userId.value)))
  }

  /** The end-to-end case: answers {q1: "a"} and then {q1: "b", q2: "c"} for video 1
      leave the caller one record for video 1, whose responses are exactly the second
      answers (the first q1 is overwritten, nothing is merged). */
  lemma ResubmissionReplacesResponses(rs: seq<Reflection>, user: AccountView, title: string, t1: Clock, t2: Clock)
    requires UniqueKeys(rs)
    ensures var second := map["q1" := Str("b"), "q2" := Str("c")];
      var after := Upsert(Upsert(rs, user.id, 1, title, map["q1" := Str("a")], t1), user.id, 1, title, second, t2);
      && GetReflectionByVideo(after, user, 1).Done?
      && GetReflectionByVideo(after, user, 1).payload.responses == second
      && |GetUserReflections(after, user, Some(1)).payload| == 1
  {
    var first := map["q1" := Str("a")];
    var second := map["q1" := Str("b"), "q2" := Str("c")];
    SubmitTwice(rs, user.id, 1, title, first, t1, title, second, t2);
    var after := Upsert(Upsert(rs, user.id, 1, title, first, t1), user.id, 1, title, second, t2);
    var i :| 0 <= i < |after| && after[i].user == user.id && after[i].videoId == 1
             && after[i].responses == second
             && forall j :: 0 <= j < |after| && j != i ==> !(after[j].user == user.id && after[j].videoId == 1);
    SoleRecordIsFound(after, user, 1, i);
  }

  /** When position `i` is the only one holding the caller's record for `videoId`,
      both reads return that record and nothing else. */
  lemma SoleRecordIsFound(rs: seq<Reflection>, user: AccountView, videoId: int, i: nat)
    requires i < |rs| && rs[i].user == user.id && rs[i].videoId == videoId
    requires forall j :: 0 <= j < |rs| && j != i ==> !(rs[j].user == user.id && rs[j].videoId == videoId)
    ensures GetReflectionByVideo(rs, user, videoId) == Done(OK, rs[i])
    ensures GetUserReflections(rs, user, Some(videoId)).payload == [rs[i]]
  {
    var listed := GetUserReflections(rs, user, Some(videoId)).payload;
    OnlyOneOccurrence(rs, i);
    assert forall x :: x in listed ==> x == rs[i];
    assert multiset(listed)[rs[i]] == 1;
    SingleValue(listed, rs[i]);
    assert listed[0] in listed;
  }

  /** An element at the only position holding its key occurs exactly once. */
  lemma OnlyOneOccurrence(rs: seq<Reflection>, i: nat)
    requires i < |rs|
    requires forall j :: 0 <= j < |rs| && j != i ==> !(rs[j].user == rs[i].user && rs[j].videoId == rs[i].videoId)
    ensures multiset(rs)[rs[i]] == 1
  {
    assert rs == rs[..i] + [rs[i]] + rs[i + 1..];
    assert rs[i] !in rs[..i];
    assert forall k :: i < k < |rs| ==> rs[k] != rs[i];
    assert rs[i] !in rs[i + 1..];
  }

  /** A sequence whose every element is `x` and that holds `x` once has length one. */
  lemma SingleValue(s: seq<Reflection>, x: Reflection)
    requires forall y :: y in s ==> y == x
    requires multiset(s)[x] == 1
    ensures |s| == 1
  {
    assert multiset(s) == multiset{x} by {
      forall y ensures multiset(s)[y] == multiset{x}[y] {
        if y != x { assert y !in s; }
      }
    }
    assert |multiset(s)| == 1;
  }
}

=== FILE: reflection_model.dfy ===
/** Per-video reflection forms: at most one record per (user, videoId), the
    compound unique index of the collection. */
module ReflectionModel {
  import opened Common
  import Seqs

  /** An answer to one form field: the closed union of the scalar shapes a
      form produces. */
  datatype Answer = Str(s: string) | Number(n: int) | Bool(b: bool)

  type Responses = map<string, Answer>

  /** A stored reflection. `videoId` is copied, not a reference; `videoTitle`
      caches the video's title when last submitted. */
  datatype Reflection = Reflection(
    user: UserId,
    videoId: int,
    videoTitle: string,
    responses: Responses,
    submittedAt: Clock,
    updatedAt: Clock)

  /** `VideoReflection.findOne({ user, videoId })`. */
  function FindReflection(rs: seq<Reflection>, user: UserId, videoId: int): (r: Option<nat>)
    ensures r.Some? ==> r.value < |rs| && rs[r.value].user == user && rs[r.value].videoId == videoId
    ensures r.None? ==> forall j :: 0 <= j < |rs| ==> !(rs[j].user == user && rs[j].videoId == videoId)
  {
    Seqs.FindFirst(rs, (x: Reflection) => x.user == user && x.videoId == videoId)
  }

  /** The compound unique index on (user, videoId). */
  predicate UniqueKeys(rs: seq<Reflection>) {
    forall i, j :: 0 <= i < j < |rs| ==> !(rs[i].user == rs[j].user && rs[i].videoId == rs[j].videoId)
  }

  /** The `videoreflections` collection, in insertion order. */
  class ReflectionCollection {
    var docs: seq<Reflection>

    ghost predicate Valid()
      reads this
    {
      UniqueKeys(docs)
    }

    constructor ()
      ensures Valid() && docs == []
    {
      docs := [];
    }
  }
}

=== FILE: routes.dfy ===
/** Which gate stands in front of each handler. `AccessOf` is the wiring of the
    four routers as it stands; `IntendedAccessOf` differs only for the student
    list, which its handler documents as instructor-only. */
module Routes {
  import opened Common
  import opened UserModel
  import opened AuthMiddleware

  datatype Endpoint =
    | Register | Login | ReadProfile | UpdateProfile
    | ListConversations | ReadMessages | SendMessage
    | SubmitReflection | ListOwnReflections | ListAllReflections | ReadReflection
    | ListVideos | CreateVideo | ReadVideo | UpdateVideo | DeleteVideo

  /** The gates as wired: the student list sits behind `protect` alone. */
  function AccessOf(e: Endpoint): (a: Access)
    ensures a.Public? <==> e in {Register, Login, ListVideos, ReadVideo}
    ensures a.Restricted? <==> e in {CreateVideo, UpdateVideo, DeleteVideo, ListAllReflections}
    ensures a.Restricted? ==> a.role == Instructor
  {
    match e
    case Register | Login | ListVideos | ReadVideo => Public
    case CreateVideo | UpdateVideo | DeleteVideo | ListAllReflections => Restricted(Instructor)
    case _ => Authenticated
  }

  /** The gates as documented: the student list is for instructors only. */
  function IntendedAccessOf(e: Endpoint): (a: Access)
    ensures a.Public? <==> AccessOf(e).Public?
    ensures a.Restricted? <==> AccessOf(e).Restricted? || e == ListConversations
    ensures a.Restricted? ==> a.role == Instructor
  {
    if e == ListConversations then Restricted(Instructor) else AccessOf(e)
  }

  /** The catalogue writes and the listing of every reflection admit instructors
      only, and refuse a stored student's valid token with 403. */
  lemma {:induction false} InstructorOnlyEndpoints(e: Endpoint, header: Option<string>,
                                                   verify: string -> Option<UserId>, users: seq<User>)
    requires e in {CreateVideo, UpdateVideo, DeleteVideo, ListAllReflections}
    ensures Admit(AccessOf(e), header, verify, users).Admitted? ==>
      Admit(AccessOf(e), header, verify, users).principal.role == Instructor
    ensures Protect(header, verify, users).Proceed? && Protect(header, verify, users).principal.role == Student ==>
      Admit(AccessOf(e), header, verify, users) == Rejected(FORBIDDEN, InsufficientRole)
  {
    assert AccessOf(e) == Restricted(Instructor);
  }

  /** As wired, any stored student presenting a valid token is admitted to the
      student list, although it is documented as instructor-only. */
  lemma StudentListsConversations(token: string, verify: string -> Option<UserId>, users: seq<User>, i: nat)
    requires token != "" && ' ' !in token
    requires i < |users| && users[i].role == Student && UniqueIds(users)
    requires verify(token) == Some(users[i].id)
    ensures Admit(AccessOf(ListConversations), Some(Scheme + " " + token), verify, users) == Admitted(View(users[i]))
    ensures View(users[i]).role == Student
  {
    BearerTokenRoundTrip(token);
    var k := FindById(users, users[i].id);
    assert k.Some? && users[k.value].id == users[i].id;
    assert k.value == i;
  }

  /** With the documented gate, the student list admits instructors only and
      answers a stored student's valid token with 403. */
  lemma ConversationsOnlyForInstructors(header: Option<string>, verify: string -> Option<UserId>, users: seq<User>)
    ensures Admit(IntendedAccessOf(ListConversations), header, verify, users).Admitted? ==>
      Admit(IntendedAccessOf(ListConversations), header, verify, users).principal.role == Instructor
    ensures Protect(header, verify, users).Proceed? && Protect(header, verify, users).principal.role == Student ==>
      Admit(IntendedAccessOf(ListConversations), header, verify, users) == Rejected(FORBIDDEN, InsufficientRole)
  {
    assert IntendedAccessOf(ListConversations) == Restricted(Instructor);
  }

  /** The correction touches no other route. */
  lemma IntendedDiffersOnlyForConversations(e: Endpoint)
    ensures IntendedAccessOf(e) != AccessOf(e) <==> e == ListConversations
  {
  }
}

=== FILE: seqs.dfy ===
/** The three query primitives every handler is built from: `findOne` (the
    first document in natural order that matches), `find` (all matching
    documents, in natural order) and `.sort` on an integer key. */
module Seqs {
  import opened Common

  /** Index of the first element of `s` satisfying `p`, as `findOne` returns it. */
  function FindFirst<T>(s: seq<T>, p: T -> bool): (r: Option<nat>)
    ensures r.Some? ==> r.value < |s| && p(s[r.value])
    ensures r.Some? ==> forall j :: 0 <= j < r.value ==> !p(s[j])
    ensures r.None? ==> forall j :: 0 <= j < |s| ==> !p(s[j])
  {
    if |s| == 0 then None
    else if p(s[0]) then Some(0)
    else match FindFirst(s[1..], p)
      case None => None
      case Some(i) => Some(i + 1)
  }

  /** The elements of `s` satisfying `p`, in their original order. */
  function Filter<T(!new)>(s: seq<T>, p: T -> bool): (r: seq<T>)
    ensures |r| <= |s|
    ensures forall x :: x in r <==> x in s && p(x)
    ensures forall x :: multiset(r)[x] == if p(x) then multiset(s)[x] else 0
  {
    if |s| == 0 then []
    else
      assert s == [s[0]] + s[1..];
      if p(s[0]) then [s[0]] + Filter(s[1..], p) else Filter(s[1..], p)
  }

  /** `f` applied to every element of `s`, in order: a projection such as `select`. */
  function Map<T, U>(s: seq<T>, f: T -> U): (r: seq<U>)
    ensures |r| == |s|
    ensures forall i :: 0 <= i < |s| ==> r[i] == f(s[i])
  {
    seq(|s|, i requires 0 <= i < |s| => f(s[i]))
  }

  /** When no other element of `s` has the image of `x`, that image occurs in the
      projection exactly as often as `x` occurs in `s`. */
  lemma {:induction false} MapCount<T, U>(s: seq<T>, f: T -> U, x: T)
    requires forall y :: y in s && f(y) == f(x) ==> y == x
    ensures multiset(Map(s, f))[f(x)] == multiset(s)[x]
  {
    if |s| > 0 {
      var n := |s| - 1;
      assert s == s[..n] + [s[n]];
      assert Map(s, f) == Map(s[..n], f) + [f(s[n])];
      MapCount(s[..n], f, x);
    }
  }

  /** Every element's key is at most the key of every later element. */
  predicate SortedBy<T>(s: seq<T>, key: T -> int) {
    forall i, j :: 0 <= i < j < |s| ==> key(s[i]) <= key(s[j])
  }

  /** Places `x` before the first element whose key is not smaller than its own. */
  function Insert<T>(x: T, s: seq<T>, key: T -> int): (r: seq<T>)
    ensures |r| == |s| + 1
    ensures multiset(r) == multiset(s) + multiset{x}
    ensures SortedBy(s, key) ==> SortedBy(r, key)
  {
    if |s| == 0 then [x]
    else if key(x) <= key(s[0]) then
      assert SortedBy(s, key) ==> SortedBy([x] + s, key) by {
        if SortedBy(s, key) { ConsSorted(x, s, key); }
      }
      [x] + s
    else
      assert s == [s[0]] + s[1..];
      var rest := Insert(x, s[1..], key);
      assert SortedBy(s, key) ==> SortedBy([s[0]] + rest, key) by {
        if SortedBy(s, key) {
          TailSorted(s, key);
          BoundedByMembers(s[0], rest, s[1..] + [x], key);
          ConsSorted(s[0], rest, key);
        }
      }
      [s[0]] + rest
  }

  /** The tail of a sorted sequence is sorted and bounded below by its head. */
  lemma TailSorted<T>(s: seq<T>, key: T -> int)
    requires |s| > 0 && SortedBy(s, key)
    ensures SortedBy(s[1..], key)
    ensures forall k :: 0 <= k < |s[1..]| ==> key(s[0]) <= key(s[1..][k])
  {
    forall i, j | 0 <= i < j < |s[1..]| ensures key(s[1..][i]) <= key(s[1..][j]) {
      assert s[1..][i] == s[i + 1] && s[1..][j] == s[j + 1];
    }
    forall k | 0 <= k < |s[1..]| ensures key(s[0]) <= key(s[1..][k]) {
      assert s[1..][k] == s[k + 1];
    }
  }

  /** A lower bound of every element of `t` bounds every element of a permutation of `t`. */
  lemma BoundedByMembers<T>(h: T, rest: seq<T>, t: seq<T>, key: T -> int)
    requires multiset(rest) == multiset(t)
    requires forall k :: 0 <= k < |t| ==> key(h) <= key(t[k])
    ensures forall k :: 0 <= k < |rest| ==> key(h) <= key(rest[k])
  {
    forall k | 0 <= k < |rest| ensures key(h) <= key(rest[k]) {
      assert rest[k] in multiset(t);
      var m :| 0 <= m < |t| && t[m] == rest[k];
    }
  }

  /** A lower bound of a sorted sequence can be put in front of it. */
  lemma ConsSorted<T>(h: T, s: seq<T>, key: T -> int)
    requires SortedBy(s, key)
    requires forall k :: 0 <= k < |s| ==> key(h) <= key(s[k])
    ensures SortedBy([h] + s, key)
  {
    var r := [h] + s;
    forall i, j | 0 <= i < j < |r| ensures key(r[i]) <= key(r[j]) {
      assert r[j] == s[j - 1];
      if i > 0 { assert r[i] == s[i - 1]; }
    }
  }

  /** An ascending sort on `key`, modelling Mongo's `.sort({ key: 1 })`; a
      descending sort is this one on the negated key. The contract promises no
      order among equal keys, as the store promises none. */
  function SortBy<T>(s: seq<T>, key: T -> int): (r: seq<T>)
    ensures |r| == |s|
    ensures multiset(r) == multiset(s)
    ensures SortedBy(r, key)
  {
    if |s| == 0 then []
    else
      assert s == [s[0]] + s[1..];
      Insert(s[0], SortBy(s[1..], key), key)
  }
}

=== FILE: user_model.dfy ===
/** The account collection: records, the unique index on `email`, the
    password-free projection handed to handlers, and the lookups the
    controllers and the request gate perform on it. */
module UserModel {
  import opened Common
  import Seqs

  /** The schema's role enumeration; registration never sets anything but Student. */
  datatype Role = Student | Instructor

  /** The shapes a profile entry takes: numbers (age, studyHours), strings
      (gender, branch, ...), the `anxietyLevel` history, the `needs` flag
      object, and an explicit JSON null. */
  datatype Field =
    | Num(n: int)
    | Text(s: string)
    | Samples(xs: seq<int>)
    | Flags(flags: map<string, bool>)
    | Null

  /** The embedded profile object, keyed by its top-level field names. */
  type Profile = map<string, Field>

  /** The one profile key whose value is itself merged key by key. */
  const NeedsKey: string := "needs"

  /** `profile.needs || {}`: the flag object under `needs`, or no flags when the
      entry is absent, null or not an object. */
  function NeedsOf(p: Profile): map<string, bool> {
    if NeedsKey in p && p[NeedsKey].Flags? then p[NeedsKey].flags else map[]
  }

  /** A stored account; `password` holds the bcrypt digest. */
  datatype User = User(
    id: UserId,
    name: string,
    email: string,
    password: string,
    role: Role,
    profile: Profile,
    createdAt: Clock)

  /** An account as `select('-password')` returns it: every field but the digest. */
  datatype AccountView = AccountView(
    id: UserId,
    name: string,
    email: string,
    role: Role,
    profile: Profile,
    createdAt: Clock)

  function View(u: User): AccountView {
    AccountView(u.id, u.name, u.email, u.role, u.profile, u.createdAt)
  }

  /** `User.findById(id)`: position of the stored account with that identity. */
  function FindById(users: seq<User>, id: UserId): (r: Option<nat>)
    ensures r.Some? ==> r.value < |users| && users[r.value].id == id
    ensures r.Some? ==> forall j :: 0 <= j < r.value ==> users[j].id != id
    ensures r.None? ==> forall j :: 0 <= j < |users| ==> users[j].id != id
  {
    Seqs.FindFirst(users, (u: User) => u.id == id)
  }

  /** `User.findOne({ email })` with the email as sent: Mongoose drops a filter
      condition whose value is undefined, so an absent email matches every
      account and the first stored one is returned. */
  function FindByEmail(users: seq<User>, email: Option<string>): (r: Option<nat>)
    ensures r.Some? ==> r.value < |users| && (email.None? || users[r.value].email == email.value)
    ensures r.Some? && email.Some? ==> forall j :: 0 <= j < r.value ==> users[j].email != email.value
    ensures r.Some? && email.None? ==> r.value == 0
    ensures r.None? && email.Some? ==> forall j :: 0 <= j < |users| ==> users[j].email != email.value
    ensures r.None? && email.None? ==> users == []
  {
    Seqs.FindFirst(users, (u: User) => email.None? || u.email == email.value)
  }

  /** `User.findOne({ role })`: position of the first account holding that role. */
  function FindByRole(users: seq<User>, role: Role): (r: Option<nat>)
    ensures r.Some? ==> r.value < |users| && users[r.value].role == role
    ensures r.Some? ==> forall j :: 0 <= j < r.value ==> users[j].role != role
    ensures r.None? ==> forall j :: 0 <= j < |users| ==> users[j].role != role
  {
    Seqs.FindFirst(users, (u: User) => u.role == role)
  }

  predicate UniqueIds(users: seq<User>) {
    forall i, j :: 0 <= i < j < |users| ==> users[i].id != users[j].id
  }

  /** The unique index on `email`. */
  predicate UniqueEmails(users: seq<User>) {
    forall i, j :: 0 <= i < j < |users| ==> users[i].email != users[j].email
  }

  /** What schema validation guarantees of every stored account: the required
      `name` and `email` are non-empty strings. */
  predicate WellFormed(u: User) {
    u.name != "" && u.email != ""
  }

  /** The `users` collection. New documents receive the identity `nextId`. */
  class UserCollection {
    var docs: seq<User>
    var nextId: UserId

    ghost predicate Valid()
      reads this
    {
      && UniqueIds(docs)
      && UniqueEmails(docs)
      && (forall i :: 0 <= i < |docs| ==> docs[i].id < nextId)
      && (forall i :: 0 <= i < |docs| ==> WellFormed(docs[i]))
    }

    constructor ()
      ensures Valid() && docs == []
    {
      docs := [];
      nextId := 0;
    }
  }
}

=== FILE: video_controller.dfy ===
/** Video catalogue handlers, all keyed by the integer `videoId`. */
module VideoController {
  import opened Common
  import opened VideoModel
  import Seqs

  /** GET /videos: always 200; every stored video exactly once, ascending by
      `videoId` (strictly, under the unique index). */
  function GetVideos(videos: seq<Video>): (r: Reply<seq<Video>>)
    ensures r.Done? && r.status == OK
    ensures multiset(r.payload) == multiset(videos)
    ensures forall i, j :: 0 <= i < j < |r.payload| ==> r.payload[i].videoId <= r.payload[j].videoId
    ensures UniqueVideoIds(videos) ==>
      forall i, j :: 0 <= i < j < |r.payload| ==> r.payload[i].videoId < r.payload[j].videoId
  {
    var sorted := Seqs.SortBy(videos, (v: Video) => v.videoId);
    assert UniqueVideoIds(videos) ==> UniqueVideoIds(sorted) by {
      if UniqueVideoIds(videos) {
        forall i, j | 0 <= i < j < |sorted| ensures sorted[i].videoId != sorted[j].videoId {
          SameKeyPositions(videos, sorted, i, j);
        }
      }
    }
    Done(OK, sorted)
  }

  /** Two positions of a permutation of a sequence with unique keys hold different
      keys. */
  lemma SameKeyPositions(videos: seq<Video>, sorted: seq<Video>, i: nat, j: nat)
    requires UniqueVideoIds(videos) && multiset(sorted) == multiset(videos)
    requires i < j < |sorted|
    ensures sorted[i].videoId != sorted[j].videoId
  {
    assert sorted[i] in multiset(videos) && sorted[j] in multiset(videos);
    var a :| 0 <= a < |videos| && videos[a] == sorted[i];
    var b :| 0 <= b < |videos| && videos[b] == sorted[j];
    if a == b {
      // the same stored video at two positions would occur twice in the permutation
      assert sorted == sorted[..j] + [sorted[j]] + sorted[j + 1..];
      assert sorted[i] in sorted[..j];
      assert multiset(sorted)[videos[a]] >= 2;
      OccursOnce(videos, a);
      assert false;
    } else if a < b {
      assert videos[a].videoId != videos[b].videoId;
    } else {
      assert videos[b].videoId != videos[a].videoId;
    }
  }

  /** Under the unique index every stored video occurs once. */
  lemma OccursOnce(videos: seq<Video>, a: nat)
    requires UniqueVideoIds(videos) && a < |videos|
    ensures multiset(videos)[videos[a]] == 1
  {
    assert videos == videos[..a] + [videos[a]] + videos[a + 1..];
    assert forall k :: 0 <= k < a ==> videos[k].videoId != videos[a].videoId;
    assert videos[a] !in videos[..a];
    assert forall k :: a < k < |videos| ==> videos[k].videoId != videos[a].videoId;
    assert videos[a] !in videos[a + 1..];
  }

  /** GET /videos/:id: the video stored under the key with 200, or 404. */
  function GetVideoById(videos: seq<Video>, videoId: int): (r: Reply<Video>)
    ensures r.Refused? <==> forall j :: 0 <= j < |videos| ==> videos[j].videoId != videoId
    ensures r.Refused? ==> r == Refused(NOT_FOUND, VideoMissing)
    ensures r.Done? ==> r.status == OK && r.payload in videos && r.payload.videoId == videoId
  {
    match FindVideo(videos, videoId)
    case None => Refused(NOT_FOUND, VideoMissing)
    case Some(i) => Done(OK, videos[i])
  }

  /** The editable fields of a create or update request; absent ones are None. */
  datatype VideoFields = VideoFields(
    title: Option<string>,
    description: Option<string>,
    videoUrl: Option<string>,
    thumbnail: Option<string>,
    weekNumber: Option<int>,
    formSchema: Option<seq<FormField>>)

  /** POST /videos. A key that matches a stored video is 400 with no change (an
      absent key matches any video); a missing key or a missing or empty title
      then fails schema validation (500); otherwise exactly one video is appended,
      stamped `now`, and 201 answers with it. */
  method CreateVideo(videos: VideoCollection, videoId: Option<int>, fields: VideoFields, now: Clock)
    returns (r: Reply<Video>)
    requires videos.Valid()
    modifies videos
    ensures videos.Valid()
    ensures r.Refused? ==> videos.docs == old(videos.docs)
    ensures r == Refused(BAD_REQUEST, VideoExists) <==> FindVideoQuery(old(videos.docs), videoId).Some?
    ensures r == Refused(SERVER_ERROR, InvalidDocument) <==>
      FindVideoQuery(old(videos.docs), videoId).None? && (videoId.None? || !TruthyText(fields.title))
    ensures r.Done? <==>
      FindVideoQuery(old(videos.docs), videoId).None? && videoId.Some? && TruthyText(fields.title)
    ensures r.Done? ==>
      && r.status == CREATED
      && videos.docs == old(videos.docs) + [r.payload]
      && r.payload.videoId == videoId.value && r.payload.title == fields.title.value
      && r.payload.description == fields.description && r.payload.videoUrl == fields.videoUrl
      && r.payload.thumbnail == fields.thumbnail && r.payload.weekNumber == fields.weekNumber
      && r.payload.formSchema == (if fields.formSchema.Some? then fields.formSchema.value else [])
      && r.payload.createdAt == now && r.payload.updatedAt == now
  {
    if FindVideoQuery(videos.docs, videoId).Some? {
      return Refused(BAD_REQUEST, VideoExists);
    }
    if videoId.None? || !TruthyText(fields.title) {
      return Refused(SERVER_ERROR, InvalidDocument);
    }
    var video := Video(videoId.value, fields.title.value, fields.description, fields.videoUrl, fields.thumbnail,
                       fields.weekNumber, if fields.formSchema.Some? then fields.formSchema.value else [],
                       now, now);
    videos.docs := videos.docs + [video];
    r := Done(CREATED, video);
  }

  /** The video after PUT /videos/:id: each editable field is replaced only by a
      truthy request value (an empty string or the number 0 is ignored; a form
      schema, being an array, is always truthy when sent); `updatedAt` becomes
      `now`; the key and creation time never change. */
  function Patch(v: Video, fields: VideoFields, now: Clock): (w: Video)
    ensures w.videoId == v.videoId && w.createdAt == v.createdAt && w.updatedAt == now
    ensures TruthyText(fields.title) ==> w.title == fields.title.value
    ensures !TruthyText(fields.title) ==> w.title == v.title
    ensures v.title != "" ==> w.title != ""
    ensures TruthyText(fields.description) ==> w.description == fields.description
    ensures !TruthyText(fields.description) ==> w.description == v.description
    ensures TruthyText(fields.videoUrl) ==> w.videoUrl == fields.videoUrl
    ensures !TruthyText(fields.videoUrl) ==> w.videoUrl == v.videoUrl
    ensures TruthyText(fields.thumbnail) ==> w.thumbnail == fields.thumbnail
    ensures !TruthyText(fields.thumbnail) ==> w.thumbnail == v.thumbnail
    ensures TruthyNumber(fields.weekNumber) ==> w.weekNumber == fields.weekNumber
    ensures !TruthyNumber(fields.weekNumber) ==> w.weekNumber == v.weekNumber
    ensures fields.formSchema.Some? ==> w.formSchema == fields.formSchema.value
    ensures fields.formSchema.None? ==> w.formSchema == v.formSchema
  {
    Video(
      v.videoId,
      if TruthyText(fields.title) then fields.title.value else v.title,
      if TruthyText(fields.description) then fields.description else v.description,
      if TruthyText(fields.videoUrl) then fields.videoUrl else v.videoUrl,
      if TruthyText(fields.thumbnail) then fields.thumbnail else v.thumbnail,
      if TruthyNumber(fields.weekNumber) then fields.weekNumber else v.weekNumber,
      if fields.formSchema.Some? then fields.formSchema.value else v.formSchema,
      v.createdAt,
      now)
  }

  /** Repeating an update at the same time changes nothing more. */
  lemma PatchIdempotent(v: Video, fields: VideoFields, now: Clock)
    ensures Patch(Patch(v, fields, now), fields, now) == Patch(v, fields, now)
  {
  }

  /** The week number cannot be set to 0 by an update. */
  lemma ZeroWeekNumberIgnored(v: Video, fields: VideoFields, now: Clock)
    requires fields.weekNumber == Some(0)
    ensures Patch(v, fields, now).weekNumber == v.weekNumber
  {
  }

  /** PUT /videos/:id: 404 with no change when no video has the key; otherwise that
      one video is replaced by its patch, in place, and 200 answers with it. */
  method UpdateVideo(videos: VideoCollection, videoId: int, fields: VideoFields, now: Clock)
    returns (r: Reply<Video>)
    requires videos.Valid()
    modifies videos
    ensures videos.Valid()
    ensures r.Refused? <==> FindVideo(old(videos.docs), videoId).None?
    ensures r.Refused? ==> r == Refused(NOT_FOUND, VideoMissing) && videos.docs == old(videos.docs)
    ensures r.Done? ==>
      && r.status == OK
      && exists i :: 0 <= i < |old(videos.docs)| && old(videos.docs)[i].videoId == videoId
                     && videos.docs == old(videos.docs)[i := Patch(old(videos.docs)[i], fields, now)]
                     && r.payload == videos.docs[i]
  {
    var found := FindVideo(videos.docs, videoId);
    if found.None? {
      return Refused(NOT_FOUND, VideoMissing);
    }
    var i := found.value;
    var updated := Patch(videos.docs[i], fields, now);
    videos.docs := videos.docs[i := updated];
    r := Done(OK, updated);
  }

  /** DELETE /videos/:id: 404 with no change when no video has the key; otherwise
      exactly that video is removed, the others keep their order, and afterwards no
      video has the key. */
  method DeleteVideo(videos: VideoCollection, videoId: int) returns (r: Reply<()>)
    requires videos.Valid()
    modifies videos
    ensures videos.Valid()
    ensures r.Refused? <==> FindVideo(old(videos.docs), videoId).None?
    ensures r.Refused? ==> r == Refused(NOT_FOUND, VideoMissing) && videos.docs == old(videos.docs)
    ensures r.Done? ==>
      && r.status == OK
      && (exists i :: 0 <= i < |old(videos.docs)| && old(videos.docs)[i].videoId == videoId
                      && videos.docs == old(videos.docs)[..i] + old(videos.docs)[i + 1..])
      && (forall j :: 0 <= j < |videos.docs| ==> videos.docs[j].videoId != videoId)
      && (forall v :: v in old(videos.docs) && v.videoId != videoId ==> v in videos.docs)
  {
    var found := FindVideo(videos.docs, videoId);
    if found.None? {
      return Refused(NOT_FOUND, VideoMissing);
    }
    var i := found.value;
    ghost var before := videos.docs;
    videos.docs := videos.docs[..i] + videos.docs[i + 1..];
    forall v | v in before && v.videoId != videoId ensures v in videos.docs {
      var k :| 0 <= k < |before| && before[k] == v;
      if k < i { assert videos.docs[k] == v; } else { assert videos.docs[k - 1] == v; }
    }
    r := Done(OK, ());
  }
}

=== FILE: video_model.dfy ===
/** The video catalogue: each video carries a small integer `videoId`,
    distinct from its storage identity and unique across the collection. */
module VideoModel {
  import opened Common
  import Seqs

  datatype FieldKind = TextInput | TextArea | Scale | Radio

  datatype Choice = Choice(value: string, caption: string)

  /** One question of a video's reflection form (the schema's `label` is
      `caption` here). The kind-specific attributes are meaningful only for
      their kind: placeholder for text inputs, the bounds and their labels
      for a scale, the choices for radio buttons. */
  datatype FormField = FormField(
    id: string,
    kind: FieldKind,
    caption: string,
    placeholder: string,
    min: int,
    max: int,
    minLabel: string,
    maxLabel: string,
    options: seq<Choice>)

  datatype Video = Video(
    videoId: int,
    title: string,
    description: Option<string>,
    videoUrl: Option<string>,
    thumbnail: Option<string>,
    weekNumber: Option<int>,
    formSchema: seq<FormField>,
    createdAt: Clock,
    updatedAt: Clock)

  /** `Video.findOne({ videoId })`: position of the first video with that key. */
  function FindVideo(videos: seq<Video>, videoId: int): (r: Option<nat>)
    ensures r.Some? ==> r.value < |videos| && videos[r.value].videoId == videoId
    ensures r.Some? ==> forall j :: 0 <= j < r.value ==> videos[j].videoId != videoId
    ensures r.None? ==> forall j :: 0 <= j < |videos| ==> videos[j].videoId != videoId
  {
    Seqs.FindFirst(videos, (v: Video) => v.videoId == videoId)
  }

  /** `Video.findOne({ videoId })` with the key as sent: an absent key is dropped
      from the filter, which then matches the first stored video. */
  function FindVideoQuery(videos: seq<Video>, videoId: Option<int>): (r: Option<nat>)
    ensures r.Some? ==> r.value < |videos| && (videoId.None? || videos[r.value].videoId == videoId.value)
    ensures r.Some? && videoId.None? ==> r.value == 0
    ensures r.None? && videoId.Some? ==> forall j :: 0 <= j < |videos| ==> videos[j].videoId != videoId.value
    ensures r.None? && videoId.None? ==> videos == []
  {
    Seqs.FindFirst(videos, (v: Video) => videoId.None? || v.videoId == videoId.value)
  }

  /** The unique index on `videoId`. */
  predicate UniqueVideoIds(videos: seq<Video>) {
    forall i, j :: 0 <= i < j < |videos| ==> videos[i].videoId != videos[j].videoId
  }

  /** The `videos` collection, in insertion order. */
  class VideoCollection {
    var docs: seq<Video>

    /** The unique index, and schema validation: `title` is required. */
    ghost predicate Valid()
      reads this
    {
      && UniqueVideoIds(docs)
      && (forall i :: 0 <= i < |docs| ==> docs[i].title != "")
    }

    constructor ()
      ensures Valid() && docs == []
    {
      docs := [];
    }
  }
}
